=== FILE: README.md ===
# TrackNStock dashboard logic in Dafny

TrackNStock is a client-side admin dashboard for shipments, inventory, orders
and users. Almost all of it is markup. This project models the parts that hold
logic, as pure functions over sequences and maps, and proves what they promise:

- **Pagination bar** (`Pagination`). It computes the sliding strip of at most
  five page buttons, the "Showing X to Y of N results" summary, and the events
  its page-size selector and Previous / Next buttons raise. It also models the
  host page's state (`currentPage`, `pageSize`). The host receives those
  events through its state setters.
- **Data table** (`Table`). It covers the select-all box and its ticked state,
  per-row tick / untick on the list of selected ids, and the sort request a
  header click raises. It also covers the sort-arrow highlighting and the
  three-way body: loading skeleton, empty-state row, or one row per item.
- **Settings page** (`SettingsPage`). It models `handleSettingChange` as a
  functional record update, the notification and two-factor switches, and the
  shape invariant that every control of the page keeps.
- **Support page** (`SupportPage`). It models the case-insensitive FAQ search
  and the single-open accordion.
- **Status badge** (`Badge`). It models the status-to-variant and
  status-to-label tables with their fallbacks, and the badge's defaults.

`Options` (an `Option` datatype for `undefined`/`null`) and `Seqs`
(order-preserving `Filter`, the model of `Array.prototype.filter`) are shared
helpers.

A few behaviours of the code that a reader might not expect:

- The page count is `Math.ceil(items / pageSize)`. It is **0** for an empty
  dataset, not at least 1.
- Nothing clamps a requested page. Previous and Next emit `currentPage ∓ 1`,
  guarded only by their disabled flags.
- The table neither sorts nor slices rows. It raises `onSort` and renders the
  array it is given. Hosts pass their whole dataset.
- The selection is an ordered list, not a set. Ticking a row appends its id.
  Unticking removes every occurrence.

## Model

| member | source | states |
|---|---|---|
| Pagination.TotalPages | src/pages/Orders.jsx:211 | the page count is the ceiling of items over page size: (n-1)·size < items ≤ n·size, and it is 0 exactly for an empty dataset |
| Pagination.PageWindow | src/components/common/Pagination.jsx:16-24 | the window starts at page 1 or later, ends at totalPages or earlier, and spans at most five pages |
| Pagination.PageStrip | src/components/common/Pagination.jsx:14-31 | the strip has at most 5 entries, each in [1, totalPages], and is a strictly increasing run of consecutive pages |
| Pagination.GetPageNumbers | src/components/common/Pagination.jsx:14-31 | the loop that pushes startPage..endPage produces exactly the strip described by PageStrip |
| Pagination.StripContainsCurrentPage | src/components/common/Pagination.jsx:19-24 | when 1 ≤ currentPage ≤ totalPages, the strip contains currentPage |
| Pagination.StripIsFullWhenEnoughPages | src/components/common/Pagination.jsx:19-28 | with at least five pages the strip has exactly five entries, for every currentPage |
| Pagination.StripListsAllPagesWhenFew | src/components/common/Pagination.jsx:19-28 | with fewer than five pages the strip is exactly 1..totalPages, and it is empty when there are no pages |
| Pagination.StripAtEnds | src/components/common/Pagination.jsx:19-24 | with at least five pages, a current page among the first three gives pages 1..5, and one among the last three (or past the end) gives the last five pages: the strip shifts instead of running past an end |
| Pagination.StripIsCentred | src/components/common/Pagination.jsx:17-20 | away from both ends the strip is currentPage-2..currentPage+2 |
| Pagination.ShowingSummary | src/components/common/Pagination.jsx:64-71 | both summary numbers are capped at the item count, and the total shown is the item count |
| Pagination.SummaryBounds | src/components/common/Pagination.jsx:65-69 | for currentPage ≥ 1 and pageSize ≥ 1: from ≤ to ≤ totalItems; both are 0 for an empty dataset; from ≥ 1 otherwise |
| Pagination.SummaryCoversPage | src/components/common/Pagination.jsx:65-69 | on an existing page, from is the first item of that page and to-from+1 is the number of items on it (a full page, or the remainder on the last page) |
| Pagination.SummaryTwelveRowsExample | src/components/common/Pagination.jsx:65-69 | 12 items at 10 per page make 2 pages, summarised "1 to 10" and "11 to 12" |
| Pagination.HandlePageSizeChange | src/components/common/Pagination.jsx:33-38 | choosing a size raises onPageSizeChange(newSize) and then onPageChange(1), in that order (its effect is stated by PageSizeChangeResetsToFirstPage) |
| Pagination.PageSizeChangeResetsToFirstPage | src/components/common/Pagination.jsx:33-38 | a page-size change emits onPageSizeChange(newSize) first and then onPageChange(1), so from any host state the host ends on page 1 with the new size |
| Pagination.PrevButton | src/components/common/Pagination.jsx:84-85 | Previous asks for currentPage-1 and is disabled only on page 1 (stated by NavigationIsUnclamped) |
| Pagination.NextButton | src/components/common/Pagination.jsx:135-136 | Next as written asks for currentPage+1 and is disabled only when currentPage equals totalPages (stated by NavigationIsUnclamped) |
| Pagination.NextButtonGuarded | src/components/common/Pagination.jsx:135-136 | the corrected Next, disabled on or past the last page; used by StepKeepsPageInRange |
| Pagination.NavigationIsUnclamped | src/components/common/Pagination.jsx:84-136 | Previous is disabled iff currentPage == 1 and asks for currentPage-1; Next is disabled iff currentPage == totalPages and asks for currentPage+1; past the end Next stays enabled and goes further |
| Pagination.StepAsWritten | src/components/common/Pagination.jsx:84-136 | a click on the bar as written: Previous moves to the page before unless on page 1; Next moves to the page after unless currentPage equals totalPages; a strip button moves to its page; a page size of at least 1 gives page 1 with that size; a disabled or missing control changes nothing; the page size stays at least 1 and only the size selector changes it |
| Pagination.Step | src/components/common/Pagination.jsx:84-136 | the same effects with the corrected Next button, which changes nothing on or past the last page |
| Pagination.StepAsWrittenKeepsPageInRange | src/components/common/Pagination.jsx:84-136 | for a non-empty dataset, Previous (disabled iff page 1), Next (disabled iff page == totalPages), a strip button or a page-size choice never leaves 1..totalPages |
| Pagination.NextEnabledWithoutPages | src/components/common/Pagination.jsx:135-136 | with no items Next is enabled on page 1 and moves the host to page 2, outside the page range |
| Pagination.StepKeepsPageInRange | src/components/common/Pagination.jsx:135-136 | with Next disabled on or past the last page, every click keeps 1 ≤ currentPage ≤ max(totalPages, 1) for every dataset size, the empty one included |
| Pagination.PrevUndoesNext | src/components/common/Pagination.jsx:84-136 | on the bar as written, from any page before the last, Next moves to the page after and Previous then returns the host to the same state |
| Pagination.PrevUndoesNextGuarded | src/components/common/Pagination.jsx:84-136 | the same round trip holds with the corrected Next button |
| Seqs.Filter | src/pages/Support.jsx:73-77 | `Array.prototype.filter`: the result is a subsequence of the input in its original order, and it holds each element as many times as the input does when the predicate accepts it, and not at all otherwise |
| Table.AllIds | src/components/common/Table.jsx:27 | the ids list has one entry per data row, holding that row's id, in data order |
| Table.SelectAllChange | src/components/common/Table.jsx:25-29 | ticking the header box reports one id per data row, in data order; clearing it reports [] |
| Table.HeaderChecked | src/components/common/Table.jsx:30-33 | the header box reads ticked exactly when the data is non-empty and the selection (absent read as []) is as long as the data, so never when the selection is absent |
| Table.IsSelected | src/components/common/Table.jsx:138-150 | a row counts as selected exactly when its id is in the selection, an absent selection read as [] |
| Table.RowCheckChange | src/components/common/Table.jsx:153-156 | after a row change the row's id is in the selection iff the box was ticked, and every other id is in it iff it was before |
| Table.SelectAllRoundTrip | src/components/common/Table.jsx:25-33 | ticking select-all emits exactly the data ids in order and clearing it emits []; the header box then reads ticked iff it was ticked over non-empty data; an absent selection never reads ticked |
| Table.SelectAllHighlightsEveryRow | src/components/common/Table.jsx:25-29 | after select-all every data row counts as selected; after clear-all none does |
| Table.HeaderCheckedByLengthOnly | src/components/common/Table.jsx:30-33 | the header box compares lengths only: a selection as long as the data reads ticked even when none of its ids are shown |
| Table.CheckRowAppends | src/components/common/Table.jsx:153-155 | ticking a row emits the old selection (absent read as []) unchanged and in order, with the row id appended at the end |
| Table.UncheckRowRemoves | src/components/common/Table.jsx:156 | unticking a row removes every occurrence of its id and keeps every other id, as often as before and in its original order |
| Table.RowCheckTouchesOnlyThatRow | src/components/common/Table.jsx:150-157 | after a row change that row is selected iff it was ticked, and every other row's selection is unchanged |
| Table.UncheckUndoesCheck | src/components/common/Table.jsx:150-157 | unticking right after ticking an unselected row gives back the original selection |
| Table.UncheckIsIdempotent | src/components/common/Table.jsx:156 | unticking the same row twice equals unticking it once |
| Table.HeaderClick | src/components/common/Table.jsx:44-48 | a header click raises onSort(key) iff the column is sortable and onSort is supplied |
| Table.SortArrows | src/components/common/Table.jsx:52-72 | arrows exist only on sortable columns; asc is lit iff sortColumn == key and direction == 'asc', desc likewise for 'desc', and never both |
| Table.AtMostOneLitColumn | src/components/common/Table.jsx:56-69 | with unique column keys at most one column shows a lit arrow |
| Table.CellValue | src/components/common/Table.jsx:168 | a cell is render(row) when the column has a renderer, else the row's field named by the key, absent when the row has no such field |
| Table.RenderRow | src/components/common/Table.jsx:129-170 | a row is keyed by its id, highlighted exactly when its id is selected, has a checkbox iff the table is selectable, ticked exactly when highlighted, and has one cell per column |
| Table.RenderBody | src/components/common/Table.jsx:90-175 | loading gives 5 skeleton rows whatever the data; otherwise empty data gives one placeholder spanning columns + checkbox column with the message or its default; otherwise one row per item in order, keyed by id, highlighted iff its id is selected, with a checkbox iff selectable, ticked iff its id is selected, and one cell per column |
| Table.LoadingHidesData | src/components/common/Table.jsx:91-109 | while loading, the body is the same for any data and any selection |
| Table.SelectAllThenRender | src/components/common/Table.jsx:129-150 | after select-all every rendered row is highlighted with a ticked box; after clear-all none is |
| SettingsPage.HandleSettingChange | src/pages/Settings.jsx:32-39 | for a group section only the one field changes and the other fields are kept; any other section becomes the plain value; no other section changes |
| SettingsPage.ToggleField | src/pages/Settings.jsx:32-39 | a switch writes the negation of the field's current truthiness and changes no other field or section |
| SettingsPage.ToggleNotification | src/pages/Settings.jsx:176-196 | a notification switch negates notifications[key], keeps the other channels, the set of sections and every other section unchanged |
| SettingsPage.ToggleTwoFactor | src/pages/Settings.jsx:235 | the two-factor switch negates security.twoFactor, keeps sessionTimeout and passwordExpiry, the set of sections and every other section unchanged |
| SettingsPage.ToggleTwiceRestores | src/pages/Settings.jsx:196 | flipping a boolean switch twice restores the whole record |
| SettingsPage.InitialIsWellShaped | src/pages/Settings.jsx:11-30 | the initial record has the eight plain sections and the two group sections |
| SettingsPage.EditsPreserveShape | src/pages/Settings.jsx:62-271 | every control of the page keeps plain sections plain, groups groups, and the set of sections unchanged |
| SupportPage.Lower | src/pages/Support.jsx:75 | lowercasing keeps the length and lowercases each ASCII letter in place |
| SupportPage.Includes | src/pages/Support.jsx:75-76 | `includes` as a scan from the left (its meaning is stated by IncludesIffOccurs) |
| SupportPage.Matches | src/pages/Support.jsx:75-76 | a FAQ matches when the lowercased term is included in its lowercased question or its lowercased answer (its meaning is stated by ShownIffTermOccurs) |
| SupportPage.IncludesIffOccurs | src/pages/Support.jsx:75-76 | the left-to-right includes scan succeeds iff the needle occurs at some position |
| SupportPage.FilterFaqs | src/pages/Support.jsx:73-77 | the listed FAQs are a subsequence of the FAQs in original order; every listed one matches; every matching one is listed, each as many times as it occurs among the FAQs |
| SupportPage.ShownIffTermOccurs | src/pages/Support.jsx:73-77 | a FAQ is listed iff it is one of the FAQs and the lowercased term occurs in its lowercased question or answer |
| SupportPage.EmptyTermShowsAll | src/pages/Support.jsx:75-76 | an empty search lists every FAQ in order |
| SupportPage.TermCaseIgnored | src/pages/Support.jsx:75-76 | searching for a term or for its lowercase lists the same FAQs |
| SupportPage.ToggleFaq | src/pages/Support.jsx:145 | after a click on position i, exactly position i is open if it was closed, and nothing is open if it was open |
| SupportPage.AtMostOneOpen | src/pages/Support.jsx:150-156 | at most one position is open at a time |
| SupportPage.ToggleTwice | src/pages/Support.jsx:145 | two clicks on i restore the state iff nothing or i itself was open |
| Badge.StatusVariant | src/components/common/Badge.jsx:74 | the variant is statusVariants[status] when known, else 'default', and it is always a variant the badge has a style for |
| Badge.StatusLabel | src/components/common/Badge.jsx:77 | the label is statusLabels[status] (non-empty) when known, else the raw status |
| Badge.LookupOr | src/components/common/Badge.jsx:74-77 | a lookup with an or-fallback: the fallback for an unknown key or an empty entry, the entry for a known key with a non-empty entry, and never anything else |
| Badge.StatusBadgeProps | src/components/common/Badge.jsx:43-76 | the badge always gets a variant: the caller's when given, else the looked-up one; the size is the caller's, if any |
| Badge.ResolveBadge | src/components/common/Badge.jsx:5-6 | an absent variant becomes 'default' and an absent size 'md'; given props are kept |
| Badge.TablesShareDomain | src/components/common/Badge.jsx:44-70 | both tables have the same domain, the eleven distinct statuses |
| Badge.SuccessAndDangerStatuses | src/components/common/Badge.jsx:44-56 | delivered, in-stock and paid map to success; cancelled, out-of-stock and unpaid map to danger |
| Badge.StatusBadgeAlwaysStyled | src/components/common/Badge.jsx:43-79 | with no extra props every status badge gets a styled variant and the default size 'md'; a variant or size the caller spreads in is drawn as given, and an absent one falls back to the lookup and to 'md' |
| Badge.UnknownStatusFallsBack | src/components/common/Badge.jsx:72-79 | an unknown status is drawn in 'default' with its own text |

## Left out

- Markup and class-string assembly (Button, Card, Input, Select, Modal, Navbar, Sidebar, Tailwind config): presentational, no logic to state.
- Animations, the Leaflet map and the charts: calls into foreign libraries.
- Routing, lazy loading, and the Redux, React Query and toast providers: framework plumbing.
- The dark-mode bootstrap: it reads localStorage and matchMedia, which is browser I/O.
- Money formatting (`toFixed`, `quantity * price`): floating point.
- `parseInt` of the page-size option: the page size is a positive natural number, as the fixed options 10, 25, 50 and 100 give.
- `Math.ceil` on a floating-point quotient: modelled as integer ceiling division, which agrees for any realistic dataset size.
- Sorting, page clamping and row slicing: the code has none of them.
- Mock datasets, the console-logging save and submit stubs, and the unimplemented add handlers.
- Rendering of the Prev/Next and strip buttons beyond their disabled flags and targets: CSS class choice only.
- Badge.StatusVariant: JavaScript plain objects also answer inherited names such as "constructor". A status with such a name would read a truthy non-string from the tables. The model treats the tables as plain finite maps.
- Badge.StatusLabel: the same gap in the label table. An inherited name such as "constructor" would read a truthy non-string, not the raw status.
- Badge.StatusBadgeProps: a prop present but explicitly `undefined` is treated as absent. In the code such a spread `variant` would override the lookup with `undefined`, and the badge would fall back to 'default'.
- SupportPage.Lower: lowercases ASCII letters only, not the full Unicode case mapping of `toLowerCase`.
- The accordion index is a position in the filtered list and is not reset when the search term changes. The model keeps it as a bare position, like the code does.
- The dark-mode switch on the settings page: it calls a theme context that is not part of this model.

## Findings

| source | as written | input that shows it | evidently intended | confidence | as-written member | corrected member |
|---|---|---|---|---|---|---|
| src/components/common/Pagination.jsx:136 | Next is disabled only when `currentPage === totalPages` | no items, so `totalPages = 0`, on page 1: Next is enabled and moves to page 2, then 3, ... | disable Next on or past the last page (`currentPage >= totalPages`) | medium, not executed | Pagination.NextEnabledWithoutPages | Pagination.StepKeepsPageInRange |

=== FILE: badge.dfy ===
/** Status badges: a status string is shown as a pill whose colour variant and
    text come from two lookup tables, with fallbacks for unknown statuses. */
module Badge {
  import opened Options

  /** The colour variants the badge has styles for. */
  const Variants: set<string> := {"default", "primary", "secondary", "success", "danger", "warning", "info"}

  /** The sizes the badge has styles for. */
  const Sizes: set<string> := {"sm", "md", "lg"}

  const DefaultVariant: string := "default"
  const DefaultSize: string := "md"

  /** Status to colour variant. */
  const StatusVariants: map<string, string> := map[
    "pending" := "warning",
    "processing" := "info",
    "in-transit" := "primary",
    "delivered" := "success",
    "cancelled" := "danger",
    "in-stock" := "success",
    "low-stock" := "warning",
    "out-of-stock" := "danger",
    "paid" := "success",
    "unpaid" := "danger",
    "refunded" := "info"
  ]

  /** Status to display text. */
  const StatusLabels: map<string, string> := map[
    "pending" := "Pending",
    "processing" := "Processing",
    "in-transit" := "In Transit",
    "delivered" := "Delivered",
    "cancelled" := "Cancelled",
    "in-stock" := "In Stock",
    "low-stock" := "Low Stock",
    "out-of-stock" := "Out of Stock",
    "paid" := "Paid",
    "unpaid" := "Unpaid",
    "refunded" := "Refunded"
  ]

  /** `table[key] || fallback`: the entry when present and non-empty. */
  function LookupOr(table: map<string, string>, key: string, fallback: string): (r: string)
    ensures key !in table ==> r == fallback
    ensures key in table && table[key] != "" ==> r == table[key]
    ensures key in table && table[key] == "" ==> r == fallback
    ensures r == fallback || (key in table && r == table[key])
  {
    if key in table && table[key] != "" then table[key] else fallback
  }

  /** The variant a status badge is drawn with. */
  function StatusVariant(status: string): (v: string)
    ensures v in Variants
    ensures v == DefaultVariant <==> status !in StatusVariants
    ensures status in StatusVariants ==> v == StatusVariants[status]
  {
    LookupOr(StatusVariants, status, DefaultVariant)
  }

  /** The text a status badge shows. */
  function StatusLabel(status: string): (l: string)
    ensures status !in StatusLabels ==> l == status
    ensures status in StatusLabels ==> l == StatusLabels[status] && l != ""
  {
    LookupOr(StatusLabels, status, status)
  }

  /** The props a badge is given; an absent prop takes its default. */
  datatype BadgeProps = BadgeProps(variant: Option<string>, size: Option<string>)

  datatype Resolved = Resolved(variant: string, size: string)

  function ResolveBadge(props: BadgeProps): (r: Resolved)
    ensures props.variant.None? ==> r.variant == DefaultVariant
    ensures props.size.None? ==> r.size == DefaultSize
    ensures props.variant.Some? ==> r.variant == props.variant.value
    ensures props.size.Some? ==> r.size == props.size.value
  {
    Resolved(props.variant.GetOr(DefaultVariant), props.size.GetOr(DefaultSize))
  }

  /** No props besides the status, as at every call site of the dashboard. */
  const NoProps: BadgeProps := BadgeProps(None, None)

  /** The props a status badge hands to the badge: the looked-up variant, then
      the caller's own props spread over it, so a variant or size the caller
      gives wins. */
  function StatusBadgeProps(status: string, props: BadgeProps): (r: BadgeProps)
    ensures r.variant.Some?
    ensures props.variant.None? ==> r.variant.value == StatusVariant(status)
    ensures props.variant.Some? ==> r.variant == props.variant
    ensures r.size == props.size
  {
    BadgeProps(if props.variant.Some? then props.variant else Some(StatusVariant(status)), props.size)
  }

  /** The statuses both tables list, in the order they list them. */
  const KnownStatuses: seq<string> := [
    "pending", "processing", "in-transit", "delivered", "cancelled", "in-stock",
    "low-stock", "out-of-stock", "paid", "unpaid", "refunded"
  ]

  /** Both tables know the same eleven distinct statuses. */
  lemma TablesShareDomain()
    ensures StatusVariants.Keys == StatusLabels.Keys
    ensures StatusVariants.Keys == set s | s in KnownStatuses
    ensures |KnownStatuses| == 11
    ensures forall i, j :: 0 <= i < j < |KnownStatuses| ==> KnownStatuses[i] != KnownStatuses[j]
  {
  }

  /** Delivered, in stock and paid read as success; cancelled, out of stock and
      unpaid as danger. */
  lemma SuccessAndDangerStatuses()
    ensures StatusVariant("delivered") == "success"
    ensures StatusVariant("in-stock") == "success"
    ensures StatusVariant("paid") == "success"
    ensures StatusVariant("cancelled") == "danger"
    ensures StatusVariant("out-of-stock") == "danger"
    ensures StatusVariant("unpaid") == "danger"
  {
  }

  /** Whatever the status, a badge given no variant or size of its own has a
      style for its variant and its size, and it is medium-sized; a variant or
      size the caller gives is drawn as given. */
  lemma StatusBadgeAlwaysStyled(status: string, props: BadgeProps)
    ensures ResolveBadge(StatusBadgeProps(status, NoProps)).variant in Variants
    ensures ResolveBadge(StatusBadgeProps(status, NoProps)).size == DefaultSize
    ensures DefaultSize in Sizes
    ensures props.variant.None? ==> ResolveBadge(StatusBadgeProps(status, props)).variant == StatusVariant(status)
    ensures props.variant.Some? ==> ResolveBadge(StatusBadgeProps(status, props)).variant == props.variant.value
    ensures props.size.None? ==> ResolveBadge(StatusBadgeProps(status, props)).size == DefaultSize
    ensures props.size.Some? ==> ResolveBadge(StatusBadgeProps(status, props)).size == props.size.value
  {
  }

  /** An unknown status, such as a user's "active", is drawn in the default
      colour with its own text. */
  lemma UnknownStatusFallsBack(status: string)
    requires status !in StatusVariants
    ensures StatusVariant(status) == DefaultVariant
    ensures StatusLabel(status) == status
  {
    TablesShareDomain();
  }
}

=== FILE: common.dfy ===
/** A value that may be absent: JavaScript's `undefined` / `null` for an
    optional prop or an unset state variable. */
module Options {

  datatype Option<+T> = None | Some(value: T) {

    /** The value, or `default` when absent (`x || default`, `x ?? default`). */
    function GetOr(default: T): T {
      match this
      case Some(v) => v
      case None => default
    }
  }
}

/** Order-preserving filtering of sequences, the model of `Array.prototype.filter`. */
module Seqs {

  /** `a` can be obtained from `b` by deleting elements, keeping the order of the rest. */
  predicate IsSubsequence<T(==,!new)>(a: seq<T>, b: seq<T>)
    decreases |b|
  {
    if |a| == 0 then true
    else if |b| == 0 then false
    else if a[0] == b[0] then IsSubsequence(a[1..], b[1..])
    else IsSubsequence(a, b[1..])
  }

  /** The elements of `s` that satisfy `p`, in their original order. */
  function Filter<T(==,!new)>(s: seq<T>, p: T -> bool): (r: seq<T>)
    ensures IsSubsequence(r, s)
    ensures |r| <= |s|
    ensures forall y :: multiset(r)[y] == if p(y) then multiset(s)[y] else 0
    decreases |s|
  {
    if |s| == 0 then []
    else
      var rest := Filter(s[1..], p);
      assert s == [s[0]] + s[1..];
      if p(s[0]) then [s[0]] + rest else rest
  }

  /** An element is kept exactly when it occurs in the input and satisfies the predicate. */
  lemma FilterMembership<T(!new)>(s: seq<T>, p: T -> bool, x: T)
    ensures x in Filter(s, p) <==> x in s && p(x)
  {
    var r := Filter(s, p);
    assert x in r <==> multiset(r)[x] > 0;
    assert x in s <==> multiset(s)[x] > 0;
  }

  /** Filtering with a predicate every element satisfies changes nothing. */
  lemma {:induction false} FilterKeepsAll<T(!new)>(s: seq<T>, p: T -> bool)
    requires forall k :: 0 <= k < |s| ==> p(s[k])
    ensures Filter(s, p) == s
    decreases |s|
  {
    if |s| > 0 {
      FilterKeepsAll(s[1..], p);
      assert s == [s[0]] + s[1..];
    }
  }

  /** Predicates that agree on the elements filter alike. */
  lemma {:induction false} FilterAgrees<T(!new)>(s: seq<T>, p: T -> bool, q: T -> bool)
    requires forall k :: 0 <= k < |s| ==> p(s[k]) == q(s[k])
    ensures Filter(s, p) == Filter(s, q)
    decreases |s|
  {
    if |s| > 0 {
      FilterAgrees(s[1..], p, q);
    }
  }

  /** Filtering distributes over concatenation. */
  lemma {:induction false} FilterAppend<T(!new)>(a: seq<T>, b: seq<T>, p: T -> bool)
    ensures Filter(a + b, p) == Filter(a, p) + Filter(b, p)
    decreases |a|
  {
    if |a| == 0 {
      assert a + b == b;
    } else {
      assert (a + b)[1..] == a[1..] + b;
      assert (a + b)[0] == a[0];
      FilterAppend(a[1..], b, p);
    }
  }

  /** Filtering twice with the same predicate is filtering once. */
  lemma FilterIdempotent<T(!new)>(s: seq<T>, p: T -> bool)
    ensures Filter(Filter(s, p), p) == Filter(s, p)
  {
    var r := Filter(s, p);
    forall k | 0 <= k < |r|
      ensures p(r[k])
    {
      assert multiset(r)[r[k]] > 0;
    }
    FilterKeepsAll(r, p);
  }
}

=== FILE: pagination.dfy ===
/** The pagination bar under every resource table: the sliding strip of page
    buttons, the "Showing X to Y of N results" summary, the page-size selector
    and the Previous / Next buttons. The component owns no state: it reports
    clicks to its parent through `onPageChange` and `onPageSizeChange`, and
    the parent computes `totalPages` as the ceiling of items over page size. */
module Pagination {

  /** The strip never shows more page buttons than this. */
  const MaxVisiblePages: int := 5

  /** How many buttons sit on each side of the current page (floor of 5 / 2). */
  const HalfVisible: int := MaxVisiblePages / 2

  function Max(a: int, b: int): int { if a >= b then a else b }

  function Min(a: int, b: int): int { if a <= b then a else b }

  /** `Math.ceil(totalItems / pageSize)` as computed by the pages that host the
      bar. An empty dataset has zero pages. */
  function TotalPages(totalItems: nat, pageSize: nat): (n: nat)
    requires pageSize >= 1
    ensures (n - 1) * pageSize < totalItems <= n * pageSize
    ensures n == 0 <==> totalItems == 0
  {
    var n := (totalItems + pageSize - 1) / pageSize;
    var r := (totalItems + pageSize - 1) % pageSize;
    assert n * pageSize + r == totalItems + pageSize - 1;
    assert (n - 1) * pageSize == n * pageSize - pageSize;
    n
  }

  // ---------------------------------------------------------------------
  // The page-number strip
  // ---------------------------------------------------------------------

  /** The consecutive integers lo, lo + 1, ..., hi; empty when hi < lo. */
  function Range(lo: int, hi: int): (r: seq<int>)
    ensures |r| == if lo <= hi then hi - lo + 1 else 0
    ensures forall k :: 0 <= k < |r| ==> r[k] == lo + k
    decreases hi - lo
  {
    if lo > hi then [] else [lo] + Range(lo + 1, hi)
  }

  /** First and last page button of the strip. */
  datatype Window = Window(start: int, end: int)

  /** Where the strip starts and ends: two pages either side of the current
      one, shifted left when it would run past the last page, and never
      starting before page 1. */
  function PageWindow(currentPage: int, totalPages: nat): (w: Window)
    ensures 1 <= w.start
    ensures w.end <= totalPages
    ensures w.end - w.start + 1 <= MaxVisiblePages
  {
    var start := Max(currentPage - HalfVisible, 1);
    var end := Min(start + MaxVisiblePages - 1, totalPages);
    if end - start + 1 < MaxVisiblePages then Window(Max(end - MaxVisiblePages + 1, 1), end)
    else Window(start, end)
  }

  /** A strictly increasing run of consecutive integers. */
  predicate Consecutive(pages: seq<int>) {
    forall k :: 0 < k < |pages| ==> pages[k] == pages[k - 1] + 1
  }

  /** The page numbers the bar shows as buttons. */
  function PageStrip(currentPage: int, totalPages: nat): (pages: seq<int>)
    ensures |pages| <= MaxVisiblePages
    ensures forall k :: 0 <= k < |pages| ==> 1 <= pages[k] <= totalPages
    ensures Consecutive(pages)
  {
    var w := PageWindow(currentPage, totalPages);
    Range(w.start, w.end)
  }

  /** The strip computed the way the component does it: clamp the window,
      then push every page from the first to the last. */
  method GetPageNumbers(currentPage: int, totalPages: nat) returns (pages: seq<int>)
    ensures pages == PageStrip(currentPage, totalPages)
  {
    var startPage := Max(currentPage - HalfVisible, 1);
    var endPage := Min(startPage + MaxVisiblePages - 1, totalPages);
    if endPage - startPage + 1 < MaxVisiblePages {
      startPage := Max(endPage - MaxVisiblePages + 1, 1);
    }
    pages := [];
    var i := startPage;
    while i <= endPage
      invariant startPage <= i <= Max(startPage, endPage + 1)
      invariant |pages| == i - startPage
      invariant forall k :: 0 <= k < |pages| ==> pages[k] == startPage + k
    {
      pages := pages + [i];
      i := i + 1;
    }
  }

  /** A page that exists is always among the buttons. */
  lemma StripContainsCurrentPage(currentPage: int, totalPages: nat)
    requires 1 <= currentPage <= totalPages
    ensures currentPage in PageStrip(currentPage, totalPages)
  {
    var w := PageWindow(currentPage, totalPages);
    var pages := PageStrip(currentPage, totalPages);
    assert w.start <= currentPage <= w.end;
    assert pages[currentPage - w.start] == currentPage;
  }

  /** With five or more pages the strip is always full, wherever the current
      page is. */
  lemma StripIsFullWhenEnoughPages(currentPage: int, totalPages: nat)
    requires totalPages >= MaxVisiblePages
    ensures |PageStrip(currentPage, totalPages)| == MaxVisiblePages
  {
  }

  /** With fewer than five pages the strip lists every page, 1 to totalPages;
      with no pages it is empty. */
  lemma StripListsAllPagesWhenFew(currentPage: int, totalPages: nat)
    requires totalPages < MaxVisiblePages
    ensures PageStrip(currentPage, totalPages) == Range(1, totalPages)
    ensures totalPages == 0 ==> PageStrip(currentPage, totalPages) == []
  {
    var w := PageWindow(currentPage, totalPages);
    assert w == Window(1, totalPages);
  }

  /** Away from both ends the strip is centred on the current page. */
  lemma StripIsCentred(currentPage: int, totalPages: nat)
    requires HalfVisible < currentPage <= totalPages - HalfVisible
    ensures PageStrip(currentPage, totalPages) == Range(currentPage - HalfVisible, currentPage + HalfVisible)
  {
  }

  /** Near either end the strip is pinned to the first or the last five
      pages: it shifts left instead of running past the last page. */
  lemma StripAtEnds(currentPage: int, totalPages: nat)
    requires totalPages >= MaxVisiblePages
    ensures currentPage <= HalfVisible + 1 ==> PageStrip(currentPage, totalPages) == Range(1, MaxVisiblePages)
    ensures totalPages - HalfVisible <= currentPage ==>
      PageStrip(currentPage, totalPages) == Range(totalPages - MaxVisiblePages + 1, totalPages)
  {
  }

  // ---------------------------------------------------------------------
  // The "Showing X to Y of N results" summary
  // ---------------------------------------------------------------------

  datatype Summary = Summary(from: int, to: int, total: int)

  /** The numbers in the summary line, each capped at the item count. */
  function ShowingSummary(currentPage: int, pageSize: int, totalItems: int): (s: Summary)
    ensures s.total == totalItems
    ensures s.from <= totalItems && s.to <= totalItems
  {
    Summary(Min((currentPage - 1) * pageSize + 1, totalItems),
            Min(currentPage * pageSize, totalItems),
            totalItems)
  }

  /** For any real page and page size the summary reads from <= to <= N, it is
      "0 to 0" for an empty dataset and starts at item 1 or later otherwise. */
  lemma SummaryBounds(currentPage: int, pageSize: int, totalItems: nat)
    requires currentPage >= 1 && pageSize >= 1
    ensures var s := ShowingSummary(currentPage, pageSize, totalItems);
      && s.from <= s.to <= totalItems
      && (totalItems == 0 ==> s.from == 0 && s.to == 0)
      && (totalItems > 0 ==> s.from >= 1)
  {
    var offset := (currentPage - 1) * pageSize;
    assert offset >= 0;
    assert currentPage * pageSize == offset + pageSize;
  }

  /** On an existing page the summary names exactly that page's items: it
      starts right after the items of the previous pages and counts a full page,
      or what is left on the last one. */
  lemma SummaryCoversPage(currentPage: int, pageSize: nat, totalItems: nat)
    requires pageSize >= 1
    requires 1 <= currentPage <= TotalPages(totalItems, pageSize)
    ensures var s := ShowingSummary(currentPage, pageSize, totalItems);
      && s.from == (currentPage - 1) * pageSize + 1
      && s.to - s.from + 1 == Min(pageSize, totalItems - (currentPage - 1) * pageSize)
  {
    var n := TotalPages(totalItems, pageSize);
    var offset := (currentPage - 1) * pageSize;
    assert currentPage * pageSize == offset + pageSize;
    assert (n - 1) * pageSize < totalItems;
    assert offset <= (n - 1) * pageSize by {
      assert n - 1 - (currentPage - 1) >= 0;
      assert (n - 1) * pageSize - offset == (n - currentPage) * pageSize;
    }
  }

  /** Twelve rows, ten per page: "1 to 10 of 12", then "11 to 12 of 12". */
  lemma SummaryTwelveRowsExample()
    ensures TotalPages(12, 10) == 2
    ensures ShowingSummary(1, 10, 12) == Summary(1, 10, 12)
    ensures ShowingSummary(2, 10, 12) == Summary(11, 12, 12)
  {
  }

  // ---------------------------------------------------------------------
  // Events raised to the parent, and the parent's state
  // ---------------------------------------------------------------------

  /** A callback invocation: `onPageSizeChange(size)` or `onPageChange(page)`. */
  datatype Emit = PageSizeChanged(size: nat) | PageChanged(page: int)

  /** The page and page size a hosting page keeps in its own state. */
  datatype PagerState = PagerState(currentPage: int, pageSize: nat)

  /** The hosts pass their state setters as the callbacks. */
  function Apply(s: PagerState, e: Emit): PagerState {
    match e
    case PageSizeChanged(size) => s.(pageSize := size)
    case PageChanged(page) => s.(currentPage := page)
  }

  /** The callbacks of a sequence, in order. Page changes alone keep the page
      size, and sizes of at least 1 keep it at least 1. */
  function ApplyAll(s: PagerState, events: seq<Emit>): (r: PagerState)
    ensures (forall k :: 0 <= k < |events| ==> events[k].PageChanged?) ==> r.pageSize == s.pageSize
    ensures s.pageSize >= 1 && (forall k :: 0 <= k < |events| && events[k].PageSizeChanged? ==> events[k].size >= 1) ==>
      r.pageSize >= 1
    decreases |events|
  {
    if |events| == 0 then s else ApplyAll(Apply(s, events[0]), events[1..])
  }

  /** A click that raises a single callback. */
  lemma ApplyOne(s: PagerState, e: Emit)
    ensures ApplyAll(s, [e]) == Apply(s, e)
  {
    assert [e][1..] == [];
  }

  /** Choosing a page size reports the new size, then asks for page 1. */
  function HandlePageSizeChange(newSize: nat): seq<Emit> {
    [PageSizeChanged(newSize), PageChanged(1)]
  }

  /** Whatever the host's state, a page-size change leaves it on page 1 with
      the chosen size. */
  lemma PageSizeChangeResetsToFirstPage(s: PagerState, newSize: nat)
    ensures ApplyAll(s, HandlePageSizeChange(newSize)) == PagerState(1, newSize)
    ensures |HandlePageSizeChange(newSize)| == 2
    ensures HandlePageSizeChange(newSize)[0] == PageSizeChanged(newSize)
    ensures HandlePageSizeChange(newSize)[1] == PageChanged(1)
  {
    var events := HandlePageSizeChange(newSize);
    assert events[1..] == [PageChanged(1)];
    ApplyOne(Apply(s, events[0]), PageChanged(1));
  }

  /** A navigation button: whether it is disabled and the page its click asks for. */
  datatype NavButton = NavButton(disabled: bool, target: int)

  /** Previous: asks for the page before, disabled only on page 1. */
  function PrevButton(currentPage: int): NavButton {
    NavButton(currentPage == 1, currentPage - 1)
  }

  /** Next as written: asks for the page after, disabled only when the
      current page equals the page count. */
  function NextButton(currentPage: int, totalPages: int): NavButton {
    NavButton(currentPage == totalPages, currentPage + 1)
  }

  /** Next with the guard the bar evidently intends: disabled on or past the
      last page, so also when there are no pages at all. */
  function NextButtonGuarded(currentPage: int, totalPages: int): NavButton {
    NavButton(currentPage >= totalPages, currentPage + 1)
  }

  /** Previous is disabled exactly on page 1 and Next exactly on page
      totalPages; neither clamps its target, so from a page past the end Next
      is enabled and goes further. */
  lemma NavigationIsUnclamped(currentPage: int, totalPages: int)
    ensures PrevButton(currentPage).disabled <==> currentPage == 1
    ensures PrevButton(currentPage).target == currentPage - 1
    ensures NextButton(currentPage, totalPages).disabled <==> currentPage == totalPages
    ensures NextButton(currentPage, totalPages).target == currentPage + 1
    ensures currentPage > totalPages ==>
      !NextButton(currentPage, totalPages).disabled && NextButton(currentPage, totalPages).target > totalPages
  {
  }

  /** What a user can do with the bar. */
  datatype Click = ClickPrev | ClickNext | ClickPage(page: int) | ChoosePageSize(size: nat)

  /** A click is possible when its button exists and is enabled. */
  predicate Clickable(s: PagerState, c: Click, totalPages: nat, next: NavButton) {
    match c
    case ClickPrev => !PrevButton(s.currentPage).disabled
    case ClickNext => !next.disabled
    case ClickPage(p) => p in PageStrip(s.currentPage, totalPages)
    case ChoosePageSize(size) => size >= 1
  }

  /** The callbacks a click raises. */
  function Emitted(s: PagerState, c: Click, next: NavButton): seq<Emit> {
    match c
    case ClickPrev => [PageChanged(PrevButton(s.currentPage).target)]
    case ClickNext => [PageChanged(next.target)]
    case ClickPage(p) => [PageChanged(p)]
    case ChoosePageSize(size) => HandlePageSizeChange(size)
  }

  /** The host's state after a click on the bar as written. */
  function StepAsWritten(s: PagerState, c: Click, totalItems: nat): (r: PagerState)
    requires s.pageSize >= 1
    ensures r.pageSize >= 1
    ensures !c.ChoosePageSize? ==> r.pageSize == s.pageSize
    ensures c.ClickPrev? ==> r == if s.currentPage == 1 then s else s.(currentPage := s.currentPage - 1)
    ensures c.ClickNext? ==>
      r == if s.currentPage == TotalPages(totalItems, s.pageSize) then s else s.(currentPage := s.currentPage + 1)
    ensures c.ClickPage? ==>
      r == if c.page in PageStrip(s.currentPage, TotalPages(totalItems, s.pageSize)) then s.(currentPage := c.page) else s
    ensures c.ChoosePageSize? ==> r == if c.size >= 1 then PagerState(1, c.size) else s
  {
    var next := NextButton(s.currentPage, TotalPages(totalItems, s.pageSize));
    if !Clickable(s, c, TotalPages(totalItems, s.pageSize), next) then s
    else
      match c
      case ChoosePageSize(size) =>
        PageSizeChangeResetsToFirstPage(s, size);
        ApplyAll(s, Emitted(s, c, next))
      case _ =>
        ApplyOne(s, Emitted(s, c, next)[0]);
        assert Emitted(s, c, next) == [Emitted(s, c, next)[0]];
        ApplyAll(s, Emitted(s, c, next))
  }

  /** The host's state after a click on the bar with the guarded Next button. */
  function Step(s: PagerState, c: Click, totalItems: nat): (r: PagerState)
    requires s.pageSize >= 1
    ensures r.pageSize >= 1
    ensures !c.ChoosePageSize? ==> r.pageSize == s.pageSize
    ensures c.ClickPrev? ==> r == if s.currentPage == 1 then s else s.(currentPage := s.currentPage - 1)
    ensures c.ClickNext? ==>
      r == if s.currentPage >= TotalPages(totalItems, s.pageSize) then s else s.(currentPage := s.currentPage + 1)
    ensures c.ClickPage? ==>
      r == if c.page in PageStrip(s.currentPage, TotalPages(totalItems, s.pageSize)) then s.(currentPage := c.page) else s
    ensures c.ChoosePageSize? ==> r == if c.size >= 1 then PagerState(1, c.size) else s
  {
    var next := NextButtonGuarded(s.currentPage, TotalPages(totalItems, s.pageSize));
    if !Clickable(s, c, TotalPages(totalItems, s.pageSize), next) then s
    else
      match c
      case ChoosePageSize(size) =>
        PageSizeChangeResetsToFirstPage(s, size);
        ApplyAll(s, Emitted(s, c, next))
      case _ =>
        ApplyOne(s, Emitted(s, c, next)[0]);
        assert Emitted(s, c, next) == [Emitted(s, c, next)[0]];
        ApplyAll(s, Emitted(s, c, next))
  }

  /** The page the host shows is a real one, or page 1 when there is none. */
  predicate PageInRange(s: PagerState, totalItems: nat)
    requires s.pageSize >= 1
  {
    1 <= s.currentPage <= Max(TotalPages(totalItems, s.pageSize), 1)
  }

  /** Every enabled control of the bar as written asks for an existing page
      as long as the dataset is not empty. */
  lemma StepAsWrittenKeepsPageInRange(s: PagerState, c: Click, totalItems: nat)
    requires s.pageSize >= 1 && totalItems > 0
    requires PageInRange(s, totalItems)
    ensures StepAsWritten(s, c, totalItems).pageSize >= 1
    ensures PageInRange(StepAsWritten(s, c, totalItems), totalItems)
  {
  }

  /** With no items the page count is 0, yet Next on page 1 is enabled and
      moves the host to page 2. */
  lemma NextEnabledWithoutPages(pageSize: nat)
    requires pageSize >= 1
    ensures !NextButton(1, TotalPages(0, pageSize)).disabled
    ensures StepAsWritten(PagerState(1, pageSize), ClickNext, 0) == PagerState(2, pageSize)
    ensures !PageInRange(StepAsWritten(PagerState(1, pageSize), ClickNext, 0), 0)
  {
  }

  /** With the guarded Next button no click ever leaves the page range, for
      every dataset size, the empty one included. */
  lemma StepKeepsPageInRange(s: PagerState, c: Click, totalItems: nat)
    requires s.pageSize >= 1
    requires PageInRange(s, totalItems)
    ensures Step(s, c, totalItems).pageSize >= 1
    ensures PageInRange(Step(s, c, totalItems), totalItems)
  {
  }

  /** Previous undoes Next: from any page before the last, Next then Previous
      comes back to the same page. */
  lemma PrevUndoesNext(s: PagerState, totalItems: nat)
    requires s.pageSize >= 1
    requires 1 <= s.currentPage < TotalPages(totalItems, s.pageSize)
    ensures StepAsWritten(s, ClickNext, totalItems) == s.(currentPage := s.currentPage + 1)
    ensures StepAsWritten(StepAsWritten(s, ClickNext, totalItems), ClickPrev, totalItems) == s
  {
  }

  /** The same holds with the guarded Next button. */
  lemma PrevUndoesNextGuarded(s: PagerState, totalItems: nat)
    requires s.pageSize >= 1
    requires 1 <= s.currentPage < TotalPages(totalItems, s.pageSize)
    ensures Step(s, ClickNext, totalItems) == s.(currentPage := s.currentPage + 1)
    ensures Step(Step(s, ClickNext, totalItems), ClickPrev, totalItems) == s
  {
  }
}

=== FILE: settings.dfy ===
/** The settings page keeps one record of sections. A section is either a
    plain value (company name, currency, ...) or a group of named values
    (notifications, security). Every edit goes through one handler that
    copies the record and overwrites either one field of a group section or a
    whole plain section. */
module SettingsPage {
  import opened Options

  /** A leaf value: the text of an input or select, or a switch. */
  datatype Value = Str(s: string) | Bool(b: bool)

  /** `typeof prev[section] === 'object'` tells the two kinds apart. */
  datatype Section = Scalar(value: Value) | Group(fields: map<string, Value>)

  type Settings = map<string, Section>

  /** The property name a computed key `[field]` produces; a `null` field, as
      the plain sections pass, names the property "null". */
  function FieldKey(field: Option<string>): string {
    field.GetOr("null")
  }

  predicate IsGroup(settings: Settings, section: string) {
    section in settings && settings[section].Group?
  }

  /** `handleSettingChange(section, field, value)`: a new record in which a
      group section has one field overwritten, and any other section, present
      or not, becomes the plain value. */
  function HandleSettingChange(settings: Settings, section: string, field: Option<string>, value: Value): (r: Settings)
    ensures r.Keys == settings.Keys + {section}
    ensures forall other :: other in settings && other != section ==> r[other] == settings[other]
    ensures IsGroup(settings, section) ==>
      && r[section].Group?
      && r[section].fields.Keys == settings[section].fields.Keys + {FieldKey(field)}
      && r[section].fields[FieldKey(field)] == value
      && forall f :: f in settings[section].fields && f != FieldKey(field) ==>
           r[section].fields[f] == settings[section].fields[f]
    ensures !IsGroup(settings, section) ==> r[section] == Scalar(value)
  {
    var updated :=
      if IsGroup(settings, section) then Group(settings[section].fields[FieldKey(field) := value])
      else Scalar(value);
    settings[section := updated]
  }

  /** JavaScript truthiness of a field that may be missing (`undefined`). */
  predicate Truthy(v: Option<Value>) {
    match v
    case None => false
    case Some(Str(s)) => s != ""
    case Some(Bool(b)) => b
  }

  function FieldOf(settings: Settings, section: string, key: string): Option<Value>
    requires IsGroup(settings, section)
  {
    var fields := settings[section].fields;
    if key in fields then Some(fields[key]) else None
  }

  /** A switch on a group section: writes the negation of the field's current
      value and touches nothing else. */
  function ToggleField(settings: Settings, section: string, key: string): (r: Settings)
    requires IsGroup(settings, section)
    ensures r.Keys == settings.Keys
    ensures IsGroup(r, section)
    ensures FieldOf(r, section, key) == Some(Bool(!Truthy(FieldOf(settings, section, key))))
    ensures forall f :: f != key ==> FieldOf(r, section, f) == FieldOf(settings, section, f)
    ensures forall other :: other in settings && other != section ==> r[other] == settings[other]
  {
    HandleSettingChange(settings, section, Some(key), Bool(!Truthy(FieldOf(settings, section, key))))
  }

  /** The switch of one notification channel, shown for each existing key. */
  function ToggleNotification(settings: Settings, key: string): (r: Settings)
    requires IsGroup(settings, "notifications") && key in settings["notifications"].fields
    ensures r.Keys == settings.Keys
    ensures IsGroup(r, "notifications")
    ensures FieldOf(r, "notifications", key) == Some(Bool(!Truthy(FieldOf(settings, "notifications", key))))
    ensures forall f :: f != key ==> FieldOf(r, "notifications", f) == FieldOf(settings, "notifications", f)
    ensures forall other :: other in settings && other != "notifications" ==> other in r && r[other] == settings[other]
  {
    ToggleField(settings, "notifications", key)
  }

  /** The two-factor switch: negates `security.twoFactor`, keeps the session
      timeout and password expiry. */
  function ToggleTwoFactor(settings: Settings): (r: Settings)
    requires IsGroup(settings, "security")
    ensures r.Keys == settings.Keys
    ensures IsGroup(r, "security")
    ensures FieldOf(r, "security", "twoFactor") == Some(Bool(!Truthy(FieldOf(settings, "security", "twoFactor"))))
    ensures FieldOf(r, "security", "sessionTimeout") == FieldOf(settings, "security", "sessionTimeout")
    ensures FieldOf(r, "security", "passwordExpiry") == FieldOf(settings, "security", "passwordExpiry")
    ensures forall other :: other in settings && other != "security" ==> other in r && r[other] == settings[other]
  {
    ToggleField(settings, "security", "twoFactor")
  }

  /** Flipping a boolean switch twice gives back the record it started from. */
  lemma ToggleTwiceRestores(settings: Settings, section: string, key: string)
    requires IsGroup(settings, section)
    requires key in settings[section].fields && settings[section].fields[key].Bool?
    ensures ToggleField(ToggleField(settings, section, key), section, key) == settings
  {
    var once := ToggleField(settings, section, key);
    var twice := ToggleField(once, section, key);
    var fields := settings[section].fields;
    assert twice[section].fields.Keys == fields.Keys;
    forall f | f in fields
      ensures twice[section].fields[f] == fields[f]
    {
      assert FieldOf(twice, section, f) == FieldOf(settings, section, f);
    }
    assert twice[section].fields == fields;
    assert twice[section] == settings[section];
  }

  // ---------------------------------------------------------------------
  // The page's record and the edits its controls make
  // ---------------------------------------------------------------------

  /** Sections edited through a text input or a select. */
  const ScalarSections: set<string> :=
    {"companyName", "email", "phone", "address", "currency", "timezone", "dateFormat", "language"}

  /** The two selects of the security card. */
  const SecurityOptions: set<string> := {"sessionTimeout", "passwordExpiry"}

  /** The record the page starts with. */
  const InitialSettings: Settings := map[
    "companyName" := Scalar(Str("TrackNStock")),
    "email" := Scalar(Str("admin@tracknstock.com")),
    "phone" := Scalar(Str("+1 (555) 123-4567")),
    "address" := Scalar(Str("123 Main St, New York, NY 10001")),
    "currency" := Scalar(Str("USD")),
    "timezone" := Scalar(Str("America/New_York")),
    "dateFormat" := Scalar(Str("MM/DD/YYYY")),
    "language" := Scalar(Str("en")),
    "notifications" := Group(map["email" := Bool(true), "push" := Bool(true), "sms" := Bool(false)]),
    "security" := Group(map["twoFactor" := Bool(true), "sessionTimeout" := Str("30"), "passwordExpiry" := Str("90")])
  ]

  /** Plain sections are plain, the two groups are groups. */
  predicate WellShaped(settings: Settings) {
    && (forall section :: section in ScalarSections ==> section in settings && settings[section].Scalar?)
    && IsGroup(settings, "notifications")
    && IsGroup(settings, "security")
  }

  /** One control of the page being used. */
  datatype Edit =
    | EditText(section: string, text: string)
    | FlipNotification(key: string)
    | FlipTwoFactor
    | ChooseSecurityOption(field: string, text: string)

  /** The page has a control for this edit. */
  predicate HasControl(settings: Settings, e: Edit)
    requires WellShaped(settings)
  {
    match e
    case EditText(section, _) => section in ScalarSections
    case FlipNotification(key) => key in settings["notifications"].fields
    case FlipTwoFactor => true
    case ChooseSecurityOption(field, _) => field in SecurityOptions
  }

  /** The handler call each control makes. */
  function ApplyEdit(settings: Settings, e: Edit): Settings
    requires WellShaped(settings) && HasControl(settings, e)
  {
    match e
    case EditText(section, text) => HandleSettingChange(settings, section, None, Str(text))
    case FlipNotification(key) => ToggleNotification(settings, key)
    case FlipTwoFactor => ToggleTwoFactor(settings)
    case ChooseSecurityOption(field, text) => HandleSettingChange(settings, "security", Some(field), Str(text))
  }

  lemma InitialIsWellShaped()
    ensures WellShaped(InitialSettings)
  {
  }

  /** Every control of the page keeps the record's shape and its set of
      sections, so each later edit finds the kind of section it expects. */
  lemma EditsPreserveShape(settings: Settings, e: Edit)
    requires WellShaped(settings) && HasControl(settings, e)
    ensures WellShaped(ApplyEdit(settings, e))
    ensures ApplyEdit(settings, e).Keys == settings.Keys
  {
    var r := ApplyEdit(settings, e);
    forall section | section in ScalarSections
      ensures section in r && r[section].Scalar?
    {
      if e.EditText? && e.section == section {
        assert !IsGroup(settings, section);
      }
    }
  }
}

=== FILE: support.dfy ===
/** The support page's FAQ list: a case-insensitive search over questions and
    answers, and an accordion in which at most one answer is open. */
module SupportPage {
  import opened Seqs

  // ---------------------------------------------------------------------
  // Text matching
  // ---------------------------------------------------------------------

  /** `toLowerCase` on the ASCII letters; every other character is kept. */
  function LowerChar(c: char): char {
    if 'A' <= c <= 'Z' then (c as int + ('a' as int - 'A' as int)) as char else c
  }

  function Lower(s: string): (r: string)
    ensures |r| == |s|
    ensures forall k :: 0 <= k < |s| ==> r[k] == LowerChar(s[k])
  {
    seq(|s|, k requires 0 <= k < |s| => LowerChar(s[k]))
  }

  /** Lowercasing twice is lowercasing once. */
  lemma LowerIdempotent(s: string)
    ensures Lower(Lower(s)) == Lower(s)
  {
  }

  /** `needle` occurs in `hay` starting at position `i`. */
  predicate OccursAt(hay: string, needle: string, i: int) {
    0 <= i && i + |needle| <= |hay| && hay[i..i + |needle|] == needle
  }

  /** `hay.includes(needle)`: try every start position from the left. The
      empty string occurs in every string. */
  predicate Includes(hay: string, needle: string)
    decreases |hay|
  {
    if |needle| > |hay| then false
    else if hay[..|needle|] == needle then true
    else |hay| > 0 && Includes(hay[1..], needle)
  }

  /** The left-to-right scan finds the needle exactly when it occurs somewhere. */
  lemma {:induction false} IncludesIffOccurs(hay: string, needle: string)
    ensures Includes(hay, needle) <==> exists i :: OccursAt(hay, needle, i)
    decreases |hay|
  {
    if |needle| > |hay| {
      assert forall i :: !OccursAt(hay, needle, i);
    } else if hay[..|needle|] == needle {
      assert OccursAt(hay, needle, 0);
    } else {
      IncludesIffOccurs(hay[1..], needle);
      if Includes(hay, needle) {
        var i :| OccursAt(hay[1..], needle, i);
        assert hay[i + 1..i + 1 + |needle|] == hay[1..][i..i + |needle|];
        assert OccursAt(hay, needle, i + 1);
      } else {
        forall i | OccursAt(hay, needle, i)
          ensures false
        {
          assert i != 0;
          assert hay[1..][i - 1..i - 1 + |needle|] == hay[i..i + |needle|];
          assert OccursAt(hay[1..], needle, i - 1);
        }
      }
    }
  }

  // ---------------------------------------------------------------------
  // The FAQ filter
  // ---------------------------------------------------------------------

  datatype Faq = Faq(question: string, answer: string)

  /** A FAQ matches when the lowercased term occurs in its lowercased question
      or its lowercased answer. */
  predicate Matches(faq: Faq, term: string) {
    Includes(Lower(faq.question), Lower(term)) || Includes(Lower(faq.answer), Lower(term))
  }

  /** The FAQs listed for a search term. */
  function FilterFaqs(faqs: seq<Faq>, term: string): (shown: seq<Faq>)
    ensures IsSubsequence(shown, faqs)
    ensures forall k :: 0 <= k < |shown| ==> Matches(shown[k], term)
    ensures forall k :: 0 <= k < |faqs| && Matches(faqs[k], term) ==> faqs[k] in shown
    ensures forall f :: multiset(shown)[f] == if Matches(f, term) then multiset(faqs)[f] else 0
  {
    var shown := Filter(faqs, f => Matches(f, term));
    forall k | 0 <= k < |shown|
      ensures Matches(shown[k], term)
    {
      FilterMembership(faqs, f => Matches(f, term), shown[k]);
    }
    forall k | 0 <= k < |faqs| && Matches(faqs[k], term)
      ensures faqs[k] in shown
    {
      FilterMembership(faqs, f => Matches(f, term), faqs[k]);
    }
    shown
  }

  /** A FAQ is listed exactly when it is one of the FAQs and some position of
      its lowercased question or answer starts the lowercased term. */
  lemma ShownIffTermOccurs(faqs: seq<Faq>, term: string, faq: Faq)
    ensures faq in FilterFaqs(faqs, term) <==>
      faq in faqs &&
      ((exists i :: OccursAt(Lower(faq.question), Lower(term), i)) ||
       (exists i :: OccursAt(Lower(faq.answer), Lower(term), i)))
  {
    FilterMembership(faqs, f => Matches(f, term), faq);
    IncludesIffOccurs(Lower(faq.question), Lower(term));
    IncludesIffOccurs(Lower(faq.answer), Lower(term));
  }

  /** An empty search lists every FAQ, in order. */
  lemma EmptyTermShowsAll(faqs: seq<Faq>)
    ensures FilterFaqs(faqs, "") == faqs
  {
    forall k | 0 <= k < |faqs|
      ensures Matches(faqs[k], "")
    {
      assert Lower(faqs[k].question)[..0] == Lower("");
    }
    FilterKeepsAll(faqs, f => Matches(f, ""));
  }

  /** The case of the search term does not matter. */
  lemma TermCaseIgnored(faqs: seq<Faq>, term: string)
    ensures FilterFaqs(faqs, Lower(term)) == FilterFaqs(faqs, term)
  {
    LowerIdempotent(term);
    FilterAgrees(faqs, f => Matches(f, Lower(term)), f => Matches(f, term));
  }

  // ---------------------------------------------------------------------
  // The accordion
  // ---------------------------------------------------------------------

  /** `expandedFaq`: `null`, or the position of the open FAQ in the listed ones. */
  datatype Expansion = Collapsed | Expanded(index: int)

  /** Whether the FAQ at position `i` shows its answer (`expandedFaq === index`). */
  predicate IsOpen(e: Expansion, i: int) {
    e == Expanded(i)
  }

  /** Clicking the question at position `i`: closes it if it was open, else
      opens it, closing any other. */
  function ToggleFaq(e: Expansion, i: int): (r: Expansion)
    ensures forall j :: IsOpen(r, j) <==> j == i && !IsOpen(e, i)
  {
    if e == Expanded(i) then Collapsed else Expanded(i)
  }

  /** At most one FAQ is open in any state. */
  lemma AtMostOneOpen(e: Expansion, i: int, j: int)
    requires IsOpen(e, i) && IsOpen(e, j)
    ensures i == j
  {
  }

  /** Clicking the same question twice returns to the starting state exactly
      when no other question was open. */
  lemma ToggleTwice(e: Expansion, i: int)
    ensures ToggleFaq(ToggleFaq(e, i), i) == e <==> (e == Collapsed || e == Expanded(i))
  {
  }
}

=== FILE: table.dfy ===
/** The generic data table: header with an optional select-all checkbox and
    sortable column headers, and a body that is either a loading skeleton, an
    empty-state row, or one row per data item. The table neither sorts nor
    pages its data: it renders the array it is given and reports sort requests
    and selection changes to its parent through `onSort` and `onSelectRow`.

    `I` is the type of row identifiers, `V` the type of cell contents. */
module Table {
  import opened Options
  import opened Seqs

  /** A data item: its identifier and its named fields. */
  datatype Row<I, V> = Row(id: I, fields: map<string, V>)

  /** A column descriptor; `render`, when present, computes the cell from the
      whole row instead of reading the field named `key`. */
  datatype Column<!I, !V> = Column(key: string, heading: string, sortable: bool, render: Option<Row<I, V> -> V>)

  // ---------------------------------------------------------------------
  // Selection
  // ---------------------------------------------------------------------

  /** The identifiers of `data`, in data order (`data.map(item => item.id)`). */
  function AllIds<I, V>(data: seq<Row<I, V>>): (ids: seq<I>)
    ensures |ids| == |data|
    ensures forall k :: 0 <= k < |data| ==> ids[k] == data[k].id
  {
    seq(|data|, k requires 0 <= k < |data| => data[k].id)
  }

  /** The selection the select-all checkbox reports when it is ticked or
      cleared. */
  function SelectAllChange<I, V>(data: seq<Row<I, V>>, isChecked: bool): (sel: seq<I>)
    ensures isChecked ==> |sel| == |data| && forall k :: 0 <= k < |data| ==> sel[k] == data[k].id
    ensures !isChecked ==> sel == []
  {
    if isChecked then AllIds(data) else []
  }

  /** The select-all checkbox shows as ticked when there is data and the
      selection is as long as the data; an absent selection never matches. */
  predicate HeaderChecked<I, V>(data: seq<Row<I, V>>, selected: Option<seq<I>>)
    ensures HeaderChecked(data, selected) <==> |data| > 0 && |Current(selected)| == |data|
    ensures selected.None? ==> !HeaderChecked(data, selected)
  {
    |data| > 0 && selected.Some? && |selected.value| == |data|
  }

  /** The selection as the row handlers read it (`selectedRows || []`). */
  function Current<I>(selected: Option<seq<I>>): seq<I> {
    selected.GetOr([])
  }

  /** Whether a row's checkbox is ticked and the row is highlighted
      (`selectedRows?.includes(id)`). */
  predicate IsSelected<I(==)>(selected: Option<seq<I>>, id: I)
    ensures IsSelected(selected, id) <==> id in Current(selected)
  {
    selected.Some? && id in selected.value
  }

  /** The selection a row checkbox reports: the id appended when ticked, every
      occurrence of it removed when cleared. */
  function RowCheckChange<I(==,!new)>(selected: Option<seq<I>>, id: I, isChecked: bool): (r: seq<I>)
    ensures id in r <==> isChecked
    ensures forall x :: x != id ==> (x in r <==> x in Current(selected))
  {
    if isChecked then Current(selected) + [id]
    else
      var kept := Filter(Current(selected), x => x != id);
      FilterMembership(Current(selected), x => x != id, id);
      assert forall x :: x != id ==> (x in kept <==> x in Current(selected)) by {
        forall x | x != id
          ensures x in kept <==> x in Current(selected)
        {
          FilterMembership(Current(selected), y => y != id, x);
        }
      }
      kept
  }

  /** Ticking the header box selects exactly the ids of the rows on show, in
      order; clearing it selects nothing. The header then reads as ticked
      exactly when it was ticked over a non-empty table. */
  lemma SelectAllRoundTrip<I, V>(data: seq<Row<I, V>>, isChecked: bool)
    ensures var sel := SelectAllChange(data, isChecked);
      && (isChecked ==> |sel| == |data| && forall k :: 0 <= k < |data| ==> sel[k] == data[k].id)
      && (!isChecked ==> sel == [])
      && (HeaderChecked(data, Some(sel)) <==> isChecked && |data| > 0)
    ensures !HeaderChecked(data, None)
  {
  }

  /** After select-all every data row is highlighted; after clear-all none is. */
  lemma SelectAllHighlightsEveryRow<I, V>(data: seq<Row<I, V>>, isChecked: bool, k: int)
    requires 0 <= k < |data|
    ensures IsSelected(Some(SelectAllChange(data, isChecked)), data[k].id) <==> isChecked
  {
    if isChecked {
      assert SelectAllChange(data, isChecked)[k] == data[k].id;
    }
  }

  /** The header box judges by length only: a selection of the right length
      reads as "all selected" even when none of its ids are on show. */
  lemma HeaderCheckedByLengthOnly<V>(data: seq<Row<int, V>>, selected: seq<int>)
    requires |data| > 0 && |selected| == |data|
    requires forall k :: 0 <= k < |data| ==> data[k].id !in selected
    ensures HeaderChecked(data, Some(selected))
    ensures forall k :: 0 <= k < |data| ==> !IsSelected(Some(selected), data[k].id)
  {
  }

  /** Ticking a row keeps the old selection (absent read as empty) in order
      and appends the row's id at the end. */
  lemma CheckRowAppends<I(!new)>(selected: Option<seq<I>>, id: I)
    ensures var r := RowCheckChange(selected, id, true);
      && |r| == |Current(selected)| + 1
      && r[..|Current(selected)|] == Current(selected)
      && r[|Current(selected)|] == id
  {
    var r := RowCheckChange(selected, id, true);
    assert r[..|Current(selected)|] == Current(selected);
  }

  /** Clearing a row drops every occurrence of its id and keeps the other ids,
      each as often as before and in their original order. */
  lemma UncheckRowRemoves<I(!new)>(selected: Option<seq<I>>, id: I)
    ensures var r := RowCheckChange(selected, id, false);
      && id !in r
      && IsSubsequence(r, Current(selected))
      && forall x :: x != id ==> multiset(r)[x] == multiset(Current(selected))[x]
  {
    var r := RowCheckChange(selected, id, false);
    FilterMembership(Current(selected), x => x != id, id);
  }

  /** A row checkbox change decides that row's highlight and leaves every
      other row's highlight as it was. */
  lemma RowCheckTouchesOnlyThatRow<I(!new)>(selected: Option<seq<I>>, id: I, isChecked: bool, other: I)
    ensures IsSelected(Some(RowCheckChange(selected, id, isChecked)), id) <==> isChecked
    ensures other != id ==>
      (IsSelected(Some(RowCheckChange(selected, id, isChecked)), other) <==> IsSelected(selected, other))
  {
    FilterMembership(Current(selected), x => x != id, id);
    FilterMembership(Current(selected), x => x != id, other);
  }

  /** Clearing a row right after ticking it restores the selection it
      started from, when the id was not selected before. */
  lemma {:induction false} UncheckUndoesCheck<I(!new)>(selected: Option<seq<I>>, id: I)
    requires id !in Current(selected)
    ensures RowCheckChange(Some(RowCheckChange(selected, id, true)), id, false) == Current(selected)
  {
    var s := Current(selected);
    var p := x => x != id;
    FilterAppend(s, [id], p);
    assert Filter([id], p) == [] by {
      assert [id][1..] == [];
    }
    FilterKeepsAll(s, p);
  }

  /** Clearing the same row twice is the same as clearing it once. */
  lemma UncheckIsIdempotent<I(!new)>(selected: Option<seq<I>>, id: I)
    ensures var once := RowCheckChange(selected, id, false);
      RowCheckChange(Some(once), id, false) == once
  {
    FilterIdempotent(Current(selected), x => x != id);
  }

  // ---------------------------------------------------------------------
  // Sorting controls
  // ---------------------------------------------------------------------

  /** The `onSort` request a header click raises, if any. */
  function HeaderClick<I, V>(column: Column<I, V>, hasOnSort: bool): (request: Option<string>)
    ensures request.Some? <==> column.sortable && hasOnSort
    ensures request.Some? ==> request.value == column.key
  {
    if column.sortable && hasOnSort then Some(column.key) else None
  }

  /** Which of the two sort arrows of a sortable column are drawn highlighted. */
  datatype Arrows = Arrows(ascLit: bool, descLit: bool)

  /** The arrows of a column: none for an unsortable column; otherwise an arrow
      is lit when this column is the sort column and the direction matches. */
  function SortArrows<I, V>(column: Column<I, V>, sortColumn: Option<string>, sortDirection: Option<string>): (a: Option<Arrows>)
    ensures a.Some? <==> column.sortable
    ensures a.Some? ==> !(a.value.ascLit && a.value.descLit)
    ensures a.Some? ==> (a.value.ascLit <==> sortColumn == Some(column.key) && sortDirection == Some("asc"))
    ensures a.Some? ==> (a.value.descLit <==> sortColumn == Some(column.key) && sortDirection == Some("desc"))
  {
    if !column.sortable then None
    else
      var isSortColumn := sortColumn == Some(column.key);
      Some(Arrows(isSortColumn && sortDirection == Some("asc"), isSortColumn && sortDirection == Some("desc")))
  }

  predicate AnyLit(a: Option<Arrows>) {
    a.Some? && (a.value.ascLit || a.value.descLit)
  }

  /** Column keys are unique within the descriptor list. */
  predicate UniqueKeys<I, V>(columns: seq<Column<I, V>>) {
    forall i, j :: 0 <= i < j < |columns| ==> columns[i].key != columns[j].key
  }

  /** With unique keys at most one column of the header shows a lit arrow. */
  lemma AtMostOneLitColumn<I, V>(columns: seq<Column<I, V>>, sortColumn: Option<string>, sortDirection: Option<string>, i: int, j: int)
    requires UniqueKeys(columns)
    requires 0 <= i < |columns| && 0 <= j < |columns|
    requires AnyLit(SortArrows(columns[i], sortColumn, sortDirection))
    requires AnyLit(SortArrows(columns[j], sortColumn, sortDirection))
    ensures i == j
  {
  }

  // ---------------------------------------------------------------------
  // The body
  // ---------------------------------------------------------------------

  /** Placeholder rows shown while loading. */
  const SkeletonRowCount: nat := 5

  /** The empty-state text when the caller gives none. */
  const DefaultEmptyMessage: string := "No data available"

  /** One data row as drawn: its React key, whether it is highlighted, its
      checkbox (present only in a selectable table) and its cells. */
  datatype RenderedRow<I, V> = RenderedRow(key: I, highlighted: bool, checkbox: Option<bool>, cells: seq<Option<V>>)

  datatype Body<I, V> =
    | Skeleton(rowCount: nat, cellsPerRow: nat)
    | Placeholder(colSpan: nat, message: string)
    | DataRows(rows: seq<RenderedRow<I, V>>)

  /** A cell: the column's renderer applied to the row, else the row's field
      named by the column key, absent (`undefined`) when there is none. */
  function CellValue<I, V>(column: Column<I, V>, row: Row<I, V>): (c: Option<V>)
    ensures column.render.Some? ==> c == Some(column.render.value(row))
    ensures column.render.None? ==> (c.Some? <==> column.key in row.fields)
    ensures column.render.None? && c.Some? ==> c.value == row.fields[column.key]
  {
    match column.render
    case Some(f) => Some(f(row))
    case None => if column.key in row.fields then Some(row.fields[column.key]) else None
  }

  /** Columns a row spans: one per descriptor plus the checkbox column. */
  function ColumnCount<I, V>(columns: seq<Column<I, V>>, selectable: bool): nat {
    |columns| + if selectable then 1 else 0
  }

  /** One data row: keyed by its id, highlighted and ticked exactly when its id
      is selected, with one cell per column. */
  function RenderRow<I(==), V>(columns: seq<Column<I, V>>, row: Row<I, V>, selectable: bool, selected: Option<seq<I>>): (r: RenderedRow<I, V>)
    ensures r.key == row.id
    ensures r.highlighted <==> row.id in Current(selected)
    ensures r.checkbox.Some? <==> selectable
    ensures r.checkbox.Some? ==> r.checkbox.value == r.highlighted
    ensures |r.cells| == |columns| && forall c :: 0 <= c < |columns| ==> r.cells[c] == CellValue(columns[c], row)
  {
    RenderedRow(row.id,
                IsSelected(selected, row.id),
                if selectable then Some(IsSelected(selected, row.id)) else None,
                seq(|columns|, c requires 0 <= c < |columns| => CellValue(columns[c], row)))
  }

  /** The body of the table. `selectable` says whether `onSelectRow` is given. */
  function RenderBody<I(==), V>(columns: seq<Column<I, V>>, data: seq<Row<I, V>>, isLoading: bool,
                                selectable: bool, selected: Option<seq<I>>, emptyMessage: Option<string>): (b: Body<I, V>)
    ensures isLoading ==> b.Skeleton? && b.rowCount == SkeletonRowCount && b.cellsPerRow == ColumnCount(columns, selectable)
    ensures !isLoading && |data| == 0 ==>
      b.Placeholder? && b.colSpan == ColumnCount(columns, selectable) && b.message == emptyMessage.GetOr(DefaultEmptyMessage)
    ensures !isLoading && |data| > 0 ==> b.DataRows? && |b.rows| == |data|
    ensures !isLoading && |data| > 0 ==> forall k :: 0 <= k < |data| ==>
      && b.rows[k].key == data[k].id
      && (b.rows[k].highlighted <==> IsSelected(selected, data[k].id))
      && (b.rows[k].checkbox.Some? <==> selectable)
      && (b.rows[k].checkbox.Some? ==> (b.rows[k].checkbox.value <==> IsSelected(selected, data[k].id)))
      && |b.rows[k].cells| == |columns|
      && forall c :: 0 <= c < |columns| ==> b.rows[k].cells[c] == CellValue(columns[c], data[k])
  {
    if isLoading then Skeleton(SkeletonRowCount, ColumnCount(columns, selectable))
    else if |data| == 0 then Placeholder(ColumnCount(columns, selectable), emptyMessage.GetOr(DefaultEmptyMessage))
    else DataRows(seq(|data|, k requires 0 <= k < |data| => RenderRow(columns, data[k], selectable, selected)))
  }

  /** While loading, the body depends on neither the data nor the selection. */
  lemma LoadingHidesData<I, V>(columns: seq<Column<I, V>>, d1: seq<Row<I, V>>, d2: seq<Row<I, V>>,
                                   selectable: bool, s1: Option<seq<I>>, s2: Option<seq<I>>, m: Option<string>)
    ensures RenderBody(columns, d1, true, selectable, s1, m) == RenderBody(columns, d2, true, selectable, s2, m)
  {
  }

  /** Ticking the header box highlights every rendered row, clearing it
      highlights none. */
  lemma SelectAllThenRender<I, V>(columns: seq<Column<I, V>>, data: seq<Row<I, V>>, isChecked: bool, k: int)
    requires 0 <= k < |data|
    ensures var b := RenderBody(columns, data, false, true, Some(SelectAllChange(data, isChecked)), None);
      b.DataRows? && (b.rows[k].highlighted <==> isChecked) && b.rows[k].checkbox == Some(isChecked)
  {
    SelectAllHighlightsEveryRow(data, isChecked, k);
  }
}
